=== FILE: README.md ===
# flytekit registration serialization and sidecar pod specs, in Dafny

This project models two pieces of flytekit.

The first is the offline step behind `pyflyte serialize`. It stamps every scanned
task, workflow and launch plan with an identifier. The project, domain and version
of that identifier are the placeholders `{{ registration.project }}`,
`{{ registration.domain }}` and `{{ registration.version }}`. The step then
expands the entity registry into an ordered batch and picks the zero-pad width
for file indices. For each batch entry it names the record file
`<idx>_<name>.pb` and the identifier file `<idx>_<name>.identifier.pb`. In fast
mode it also names the source archive `<digest>.tar.gz`.

The second is the sidecar task plugin. Its constructor validates the task
configuration. Its `get_custom` rewrites the pod spec's primary container from
the SDK's default container before wrapping the pod spec in a `SidecarJob`.

Files:

- `results.dfy`: `Option` (Python `None`) and `Result` (a raised exception).
- `digits.dfy`: `str(i)`, `str.zfill(w)`, the value of a digit string, and
  Python's string `<`.
- `paths.dfy`: `os.path.join` for two components.
- `serialize.dfy`: the pipeline (`serialize_tasks_only`, `serialize_all`,
  `_determine_text_chars`, the fast-mode archive name).
- `serialize_proofs.dfy`: properties of the pipeline.
- `sidecar.dfy`: `Sidecar.__init__` and `SidecarFunctionTask.get_custom`.

Modelling choices:

- The registry is an explicit sequence of `Entity` values.
  `Task | Workflow | LaunchPlan | Other` is a closed datatype.
- The registerable forms the SDK computes are opaque fields of each variant.
  That covers `get_registerable_entity`, `get_fast_registerable_entity` and the
  default launch plan.
- `fqdn` is a function parameter. The package scan is an input sequence of
  `(module, key, object)` triples. `compute_digest(source_dir)` is an input
  string. So is the SDK default container (`get_container(settings)`).
- A file is modelled by its path plus the entity whose serialized form it holds.
  Bytes are not modelled.
- An absent output folder is the empty string. Both are falsy in `if folder:`.
  An absent (falsy) mode is `None`.

Behaviour of the code worth stating, because a quick reading suggests otherwise:

- Already-registered entities are skipped in the writing loop, inside
  `enumerate` (`serialize.py:155-158`), not during expansion. So a skipped
  entity still takes an index and still counts toward the pad width.
- Every workflow's default launch plan is appended to the batch
  (`serialize.py:149-152`), whether or not fetching it constructed a new one.
- The scanned objects are the head of `loaded_entities` (`serialize.py:114-121`),
  so they are written too. The batch is the stamped scanned objects followed by
  the expansion of the registry snapshot.
- `Sidecar.__init__` tests `not pod_spec` (`task.py:30`), and a protobuf message
  object has no truthiness of its own. So only a missing pod spec (`None`) is
  rejected; a pod spec message without containers is accepted.

## Model

| member | source | states |
|---|---|---|
| Serialize.Stamp | flytekit/clis/sdk_in_container/serialize.py:116-120 | the stamped identifier carries the three placeholders, the object's resource type and the name `fqdn(module, key, resource type)`; nothing but the identifier changes |
| Serialize.AssignIdentifiers | flytekit/clis/sdk_in_container/serialize.py:114-121 | one stamped object per scanned triple, in scan order: entry `i` is scanned object `i` with only its identifier replaced, carrying placeholder project/domain/version, the object's resource type and its fqdn name |
| Serialize.EffectiveMode | flytekit/clis/sdk_in_container/serialize.py:126 | no ensures of its own: `mode or DEFAULT`; `SerializeProofs.MissingModeIsDefault` pins it down, since an absent mode serializes exactly as DEFAULT and never fails |
| Serialize.ExpandEntity | flytekit/clis/sdk_in_container/serialize.py:137-152 | one registry entry fails exactly when it is a task and the mode is unrecognized, with that mode in the error; `SerializeProofs.TaskFormFollowsMode`, `WorkflowFollowedByDefaultLaunchPlan`, `LaunchPlanPassesThrough` and `OtherEntitiesDropped` pin down its forms per kind |
| Serialize.Expand | flytekit/clis/sdk_in_container/serialize.py:137-152 | the expansion fails exactly when the mode is unrecognized and the snapshot holds a task, with that mode in the error; otherwise the batch has one entry per task and launch plan and two per workflow |
| Serialize.ExpandSingle | flytekit/clis/sdk_in_container/serialize.py:137-152 | a one-entry snapshot contributes exactly the forms of that entry |
| Serialize.ExpandAppend | flytekit/clis/sdk_in_container/serialize.py:137-152 | one more registry entry appends its forms to the batch, or makes the expansion fail with its error |
| Serialize.ExpandOne | flytekit/clis/sdk_in_container/serialize.py:137-152 | one loop iteration fails exactly on a task under an unrecognized mode; otherwise it appends the entry's forms to the batch and, for a workflow whose default launch plan is new, that launch plan to the live registry |
| Serialize.ExpandConcatOk | flytekit/clis/sdk_in_container/serialize.py:137-144 | a concatenated registry expands without error iff both parts do |
| Serialize.ExpandConcat | flytekit/clis/sdk_in_container/serialize.py:129-152 | expanding a concatenation succeeds iff both parts do, and the batch is the concatenation of the parts' batches (batch order follows registry order) |
| Serialize.CreatedLaunchPlansConcat | flytekit/clis/sdk_in_container/serialize.py:149-150 | launch plans constructed while expanding a concatenation are those of each part, in order |
| Serialize.CreatedLaunchPlans | flytekit/clis/sdk_in_container/serialize.py:149-150 | the objects `get_default_launch_plan` adds to the live registry are launch plans, at most one per snapshot entry; `Serialize.ExpandOne` and `Serialize.ExpandRegistry` tie them to workflows that construct a new launch plan |
| Serialize.ExpandRegistry | flytekit/clis/sdk_in_container/serialize.py:127-152 | the loop over the registry copy yields exactly the expansion of the snapshot, while the live registry grows by the newly constructed default launch plans, which the loop never visits |
| Serialize.Width | flytekit/clis/sdk_in_container/serialize.py:178-188 | 0 for 0 or 1 entries; otherwise `10^w >= n` and `10^(w-1) < n` |
| Serialize.FileStem | flytekit/clis/sdk_in_container/serialize.py:160-172 | the stem `<idx>_<name>` starts with a digit and ends with `_` and the entity name |
| Serialize.StemIndex | flytekit/clis/sdk_in_container/serialize.py:160-161 | the digits in front of the final `_<name>` of a stem read back as the batch index |
| Serialize.OutputPath | flytekit/clis/sdk_in_container/serialize.py:163-174 | without a folder the file name is used as is; with one, a relative name goes under the folder's join prefix |
| Serialize.PairAt | flytekit/clis/sdk_in_container/serialize.py:159-175 | both files of an entry hold that entry, and its record and identifier paths never coincide; `SerializeProofs.OutputPathShape`, `RecordPathShape` and `SameFileSameIndex` pin down the names |
| Serialize.EmittedFrom | flytekit/clis/sdk_in_container/serialize.py:155-158 | the positions the loop writes files for are non-skipped positions, strictly increasing (enumeration order); without the registered check they are all positions in order |
| Serialize.EmittedFromComplete | flytekit/clis/sdk_in_container/serialize.py:155-158 | every non-skipped position is written: `continue` only ever drops registered entries |
| Serialize.WriteBatch | flytekit/clis/sdk_in_container/serialize.py:154-175 | every written pair is the pair of some non-skipped batch index, every non-skipped index has its pair written, and the pairs come in enumeration order of the emitted positions |
| Serialize.WriteBatchInOrder | flytekit/clis/sdk_in_container/serialize.py:59-72 | without the registered check the pairs are exactly those of indices 0..n-1, in order |
| Serialize.WriteBatchSize | flytekit/clis/sdk_in_container/serialize.py:155-158 | at most one pair is written per batch entry |
| Serialize.SerializeTasksOnly | flytekit/clis/sdk_in_container/serialize.py:50-72 | every scanned task is written (no registered check), pair `k` holding the `k`-th stamped object under index `k` |
| Serialize.LoadedEntities | flytekit/clis/sdk_in_container/serialize.py:114-152 | the batch exists iff the expansion succeeds and has as many entries as scanned objects plus expanded registry entries |
| Serialize.SerializeAll | flytekit/clis/sdk_in_container/serialize.py:114-175 | fails iff the effective mode is unrecognized and the registry has a task; otherwise every batch entry not yet registered has its pair written under its own batch index, and every written pair is such an entry's; no written file holds an already registered entity; at most one pair per batch entry |
| Serialize.ArchiveName | flytekit/clis/sdk_in_container/serialize.py:254-256 | `<digest>.tar.gz` bare without a folder, and under the folder's join prefix with one whenever the digest is not an absolute path |
| Serialize.FastWorkflows | flytekit/clis/sdk_in_container/serialize.py:245-256 | fast serialization never fails on the mode, writes exactly the files of `serialize_all` in fast mode, and the archive path is the digest-named archive under the folder |
| Digits.Decimal | flytekit/clis/sdk_in_container/serialize.py:160 | `str(i)` is a non-empty digit string, one character exactly for values below 10 |
| Digits.ZFill | flytekit/clis/sdk_in_container/serialize.py:160 | `zfill` pads with '0' on the left up to the width, keeps the string as its suffix, and never truncates |
| Digits.Padded | flytekit/clis/sdk_in_container/serialize.py:160 | no ensures of its own: `str(i).zfill(w)`; `Digits.PaddedRoundTrip`, `PaddedExactWidth`, `PaddedInjective` and `PaddedOrder` pin it down |
| Digits.DecimalRoundTrip | flytekit/clis/sdk_in_container/serialize.py:160 | reading `str(n)` back as a decimal gives `n` |
| Digits.DecimalFits | flytekit/clis/sdk_in_container/serialize.py:154-160 | for `w >= 1`, `str(n)` has at most `w` digits when `n < 10^w` |
| Digits.PaddedRoundTrip | flytekit/clis/sdk_in_container/serialize.py:160 | a padded index is all digits and reads back as the index |
| Digits.PaddedInjective | flytekit/clis/sdk_in_container/serialize.py:160 | distinct indices never pad to the same string |
| Digits.PaddedExactWidth | flytekit/clis/sdk_in_container/serialize.py:154-160 | for `w >= 1`, an index below `10^w` pads to exactly `w` characters |
| Digits.LexLessIsNumericOrder | flytekit/clis/sdk_in_container/serialize.py:160 | for equal-length digit strings, string order coincides with numeric order |
| Digits.PaddedOrder | flytekit/clis/sdk_in_container/serialize.py:154-160 | padded indices below `10^w` (`w >= 1`) sort as strings exactly in index order |
| Paths.Join | flytekit/clis/sdk_in_container/serialize.py:163-164 | an absolute name replaces the folder, an empty folder leaves the name bare, otherwise the name follows the folder's join prefix |
| Paths.JoinPrefix | flytekit/clis/sdk_in_container/serialize.py:256 | what `os.path.join` puts before a relative name: nothing under an empty folder, otherwise the folder ending in exactly one added or existing `/` |
| Paths.JoinInjective | flytekit/clis/sdk_in_container/serialize.py:163-164 | joining two distinct relative names under one folder gives distinct paths |
| SerializeProofs.WidthIsLeast | flytekit/clis/sdk_in_container/serialize.py:178-188 | no `v` smaller than the width has `10^v >= n`: the width is the least such exponent |
| SerializeProofs.WidthExamples | flytekit/clis/sdk_in_container/serialize.py:178-188 | widths 0, 0, 1, 2, 2, 3 for 0, 1, 10, 11, 100, 101 entries, as the docstring says for 10 and 11 |
| SerializeProofs.IndexPrefixes | flytekit/clis/sdk_in_container/serialize.py:154-160 | in a batch of two or more, every index pads to exactly the width, prefixes are equal iff indices are, and string order of prefixes is index order |
| SerializeProofs.SingleEntryIndex | flytekit/clis/sdk_in_container/serialize.py:154-160 | a single-entry batch has width 0 and its index stays "0" |
| SerializeProofs.ExpandAround | flytekit/clis/sdk_in_container/serialize.py:129-152 | the batch splits around any registry entry into the expansions before it, of it, and after it |
| SerializeProofs.WorkflowFollowedByDefaultLaunchPlan | flytekit/clis/sdk_in_container/serialize.py:146-152 | a workflow's form is immediately followed in the batch by its default launch plan's form |
| SerializeProofs.TaskFormFollowsMode | flytekit/clis/sdk_in_container/serialize.py:138-144 | a task contributes its default form in default mode and its fast form in fast mode; an unrecognized mode makes the whole expansion fail |
| SerializeProofs.FastModeTakesFastForms | flytekit/clis/sdk_in_container/serialize.py:137-152 | fast mode never fails, and expands a registry exactly as the default mode expands it with every task's fast form in place of its default form |
| SerializeProofs.FastWorkflowsWriteFastForms | flytekit/clis/sdk_in_container/serialize.py:245-252 | the files of fast registration are those the default mode writes for the registry with each task's fast form in place of its default form |
| SerializeProofs.LaunchPlanPassesThrough | flytekit/clis/sdk_in_container/serialize.py:145-147 | a launch plan contributes exactly its registerable form |
| SerializeProofs.OtherEntitiesDropped | flytekit/clis/sdk_in_container/serialize.py:137 | entries of other kinds leave the expansion as if they were absent |
| SerializeProofs.ModeOnlyAffectsTasks | flytekit/clis/sdk_in_container/serialize.py:137-146 | without tasks the expansion is the same in every mode, unrecognized ones included |
| SerializeProofs.MissingModeIsDefault | flytekit/clis/sdk_in_container/serialize.py:126 | a missing mode serializes exactly as the default mode, and never fails |
| SerializeProofs.ScannedObjectsComeFirst | flytekit/clis/sdk_in_container/serialize.py:114-152 | the batch begins with the stamped scanned objects in scan order and continues with the registry's expansion |
| SerializeProofs.OutputPathShape | flytekit/clis/sdk_in_container/serialize.py:160-174 | every written path is the folder's join prefix (empty without folder) followed by the index stem and suffix |
| SerializeProofs.SameFileSameIndex | flytekit/clis/sdk_in_container/serialize.py:160-172 | two file names of one batch that agree come from the same index |
| SerializeProofs.WrittenPathsDistinct | flytekit/clis/sdk_in_container/serialize.py:160-174 | no two files written for a batch collide: distinct entries get distinct record and identifier paths, and no record path is an identifier path |
| SerializeProofs.RecordPathShape | flytekit/clis/sdk_in_container/serialize.py:160-164 | a record path is the folder prefix, the padded index, then `_<name>.pb` |
| SerializeProofs.RecordPathsSortByIndex | flytekit/clis/sdk_in_container/serialize.py:160-164 | record paths of a batch of two or more sort as strings in batch order |
| SerializeProofs.SkipRemovesOnlyItsOwnFiles | flytekit/clis/sdk_in_container/serialize.py:154-158 | marking one entry registered removes exactly its own file pair; every other written pair, index and width are unchanged |
| SerializeProofs.RecordNameExample | flytekit/clis/sdk_in_container/serialize.py:160-165 | index 2 at width 1 under folder `out` is `out/2_pkg.w.pb` |
| SerializeProofs.IdentifierNameExample | flytekit/clis/sdk_in_container/serialize.py:172-174 | index 7 at width 3 without folder is `007_pkg.t.identifier.pb` |
| SerializeProofs.ArchiveNameExamples | flytekit/clis/sdk_in_container/serialize.py:255-256 | the archive is `abc.tar.gz` without folder and `out/abc.tar.gz` under `out/` |
| SerializeProofs.ScenarioWorkflowWithTask | flytekit/clis/sdk_in_container/serialize.py:129-152 | a registry of one task and one workflow yields the batch task, workflow, default launch plan |
| SidecarTask.NewSidecar | flytekit/taskplugins/sidecar/task.py:29-36 | construction succeeds iff a pod spec is given and the primary name is non-empty; the pod spec check comes first; a success keeps both values |
| SidecarTask.ResourceKeyIsLoweredName | flytekit/taskplugins/sidecar/task.py:91 | each resource key is the lower-cased protobuf enum name |
| SidecarTask.ResourceKeyInjective | flytekit/taskplugins/sidecar/task.py:89-96 | distinct resource names have distinct keys |
| SidecarTask.Quantities | flytekit/taskplugins/sidecar/task.py:88-96 | every key of the quantity map comes from some resource entry and holds that entry's value; `SidecarTask.QuantitiesKeys` and `QuantitiesLastWins` pin down which keys and which values |
| SidecarTask.QuantitiesKeys | flytekit/taskplugins/sidecar/task.py:89-96 | the limits (requests) map has a key exactly for the resources listed |
| SidecarTask.QuantitiesLastWins | flytekit/taskplugins/sidecar/task.py:89-96 | each key holds the value of the last entry for that resource |
| SidecarTask.DefaultResources | flytekit/taskplugins/sidecar/task.py:88-96 | the assembled requirements have a limit key for exactly the SDK's limit entries and a request key for exactly its request entries |
| SidecarTask.HasRequirements | flytekit/taskplugins/sidecar/task.py:97 | `ByteSize()` is non-zero exactly when the requirements message is not the empty one |
| SidecarTask.DefaultResourcesSetIff | flytekit/taskplugins/sidecar/task.py:97-99 | the assembled requirements are non-empty iff the SDK container has a limit or a request |
| SidecarTask.EnvFromDefault | flytekit/taskplugins/sidecar/task.py:101-107 | the env is one entry per item of the SDK env dict, in `items()` order, with its value; names never repeat and nothing else is added |
| SidecarTask.Placeholder | flytekit/taskplugins/sidecar/task.py:69-71 | the appended container carries only the primary name: no image, command, args, env or resources; `SidecarTask.MissingPrimaryAppended` places it |
| SidecarTask.RewritePrimary | flytekit/taskplugins/sidecar/task.py:77-107 | a primary container gets the SDK image, command, args and env, and the SDK resources only when those are non-empty; its name and other fields are kept |
| SidecarTask.RewriteContainers | flytekit/taskplugins/sidecar/task.py:61-109 | the result has a primary container; the count is unchanged when a primary existed and one larger otherwise; non-primary containers pass through in place; every primary (and the appended placeholder) is rewritten |
| SidecarTask.Customize | flytekit/taskplugins/sidecar/task.py:111-116 | the pod spec's containers become the rewritten container list (primary ensured, primaries rewritten, others kept in place); the primary name and the pod spec's other fields are kept |
| SidecarTask.GetCustom | flytekit/taskplugins/sidecar/task.py:60-117 | the two loops of `get_custom` compute exactly the rewritten configuration, and the job carries its pod spec and the unchanged primary name |
| SidecarTask.PrimaryResources | flytekit/taskplugins/sidecar/task.py:88-99 | a primary's resources become the SDK's iff the SDK container has a limit or request, and are kept otherwise |
| SidecarTask.RewrittenDetermined | flytekit/taskplugins/sidecar/task.py:77-107 | the rewrite of a primary container is determined by the container and the SDK container |
| SidecarTask.RewrittenIsStable | flytekit/taskplugins/sidecar/task.py:77-107 | rewriting a rewritten primary container again changes nothing (command and args are replaced, not accumulated) |
| SidecarTask.CustomizeIdempotent | flytekit/taskplugins/sidecar/task.py:60-112 | running `get_custom` on the configuration it already rewrote in place leaves the pod spec unchanged |
| SidecarTask.MissingPrimaryAppended | flytekit/taskplugins/sidecar/task.py:62-71 | without a primary, the existing containers are kept in front and exactly one primary, built from a name-only placeholder, is appended at the end |

## Left out

- Float `math.log` in `_determine_text_chars` (`serialize.py:188`): the width is the integer characterisation, the least `w` with `10^w >= n`; floating-point rounding at large powers of ten is not modelled.
- Click command wiring, `click.echo`, logging, and `_write_proto_to_file`: I/O; only the paths that would be written, and what each file holds, are modelled.
- The `workflows` command (`serialize.py:216-228`) is `SerializeAll` with `Some(Default)` and has no member of its own.
- Tar archive writing and `filter_tar_file_fn` (`serialize.py:258-260`): I/O; only the archive's name is modelled.
- `compute_digest` (`serialize.py:254`): its source is not part of this model; the digest is an input string.
- `iterate_registerable_entities_in_order` and its `include_entities` filter: the scan's result is an input sequence.
- `fqdn`: its source is not part of this model; it is a function parameter.
- `get_registerable_entity`, `get_fast_registerable_entity` and `LaunchPlan.get_default_launch_plan`: their sources are not part of this model. Their results are opaque fields of each registry entry. Whether fetching the default launch plan constructs a new object is a flag.
- `serialize()` and `to_flyte_idl()` bytes: opaque; a file is represented by the entity it holds.
- The registration-settings context, the configuration and image lookups, and `add_instance_var` (`serialize.py:99-113,122`): global process state. These settings (placeholders, image, env) reach registry entries only through their opaque registerable forms, so the placeholder identifiers are proved only for scanned objects (`Serialize.Stamp`).
- `ResourceName`'s members are taken to be UNKNOWN, CPU, GPU, MEMORY and STORAGE: flyteidl's `Resources.ResourceName` enum is not part of this model.
- `MessageToDict` on the `SidecarJob` (`task.py:117`): the job is returned as a record.
- `get_container(settings)`: its source is not part of this model; the SDK default container is an input.
- `_local_execute` (`task.py:119-120`): it always raises and concerns local execution.
- The plugin registration call (`task.py:123`) and the `SidecarFunctionTask` constructor: wiring only.
- `flytekit/types/structured/basic_dfs.py`: dataframe encoding through pandas/pyarrow and remote storage, all library calls and I/O.
- Serialize.ExpandRegistry: when the expansion fails, the contract only states that the live registry keeps the snapshot as its prefix, not which launch plans were constructed before the failure.

=== FILE: digits.dfy ===
/** Decimal rendering of sequence indices: Python's `str(i)` for a
    non-negative integer, `str.zfill(w)` on the result, the decimal value of a
    digit string, and Python's `<` on strings (lexicographic order). */
module Digits {

  /** 10 to the power `k`. */
  function Pow10(k: nat): (p: nat)
    ensures p >= 1
  {
    if k == 0 then 1 else 10 * Pow10(k - 1)
  }

  predicate IsDigit(c: char) {
    '0' <= c <= '9'
  }

  predicate AllDigits(s: string) {
    forall k :: 0 <= k < |s| ==> IsDigit(s[k])
  }

  function DigitValue(c: char): (d: nat)
    requires IsDigit(c)
    ensures d < 10
  {
    c as int - '0' as int
  }

  function DigitChar(d: nat): (c: char)
    requires d < 10
    ensures IsDigit(c) && DigitValue(c) == d
  {
    (d + '0' as int) as char
  }

  /** `str(n)`: the decimal digits of `n`, most significant first, without
      leading zeros ("0" for zero). */
  function Decimal(n: nat): (s: string)
    ensures |s| >= 1 && AllDigits(s)
    ensures n < 10 <==> |s| == 1
  {
    if n < 10 then [DigitChar(n)] else Decimal(n / 10) + [DigitChar(n % 10)]
  }

  /** A run of `k` '0' characters. */
  function Zeros(k: nat): (z: string)
    ensures |z| == k && forall i :: 0 <= i < k ==> z[i] == '0'
  {
    if k == 0 then [] else ['0'] + Zeros(k - 1)
  }

  /** `s.zfill(w)` on a digit string: '0' characters are added on the left
      until the string is `w` long; a string already `w` or longer is
      returned unchanged, never truncated. */
  function ZFill(s: string, w: nat): (r: string)
    ensures |r| == if |s| >= w then |s| else w
    ensures r[|r| - |s|..] == s
    ensures forall k :: 0 <= k < |r| - |s| ==> r[k] == '0'
  {
    if |s| >= w then s else Zeros(w - |s|) + s
  }

  /** `str(i).zfill(w)`: the index prefix of an output file name. */
  function Padded(i: nat, w: nat): (p: string) {
    ZFill(Decimal(i), w)
  }

  /** The number a digit string denotes, most significant digit first;
      leading zeros are allowed. */
  function Value(s: string): (v: nat)
    requires AllDigits(s)
  {
    if |s| == 0 then 0 else DigitValue(s[0]) * Pow10(|s| - 1) + Value(s[1..])
  }

  /** Python's `a < b` on strings: lexicographic by character, a proper
      prefix ordered first. */
  predicate LexLess(a: string, b: string) {
    if |a| == 0 then |b| > 0
    else if |b| == 0 then false
    else a[0] < b[0] || (a[0] == b[0] && LexLess(a[1..], b[1..]))
  }

  lemma {:induction false} ValueBound(s: string)
    requires AllDigits(s)
    ensures Value(s) < Pow10(|s|)
  {
    if |s| > 0 {
      ValueBound(s[1..]);
      var p, d := Pow10(|s| - 1), DigitValue(s[0]);
      assert Value(s) == d * p + Value(s[1..]);
      assert d * p <= 9 * p by {
        MulMonotone(d, 9, p);
      }
      assert Pow10(|s|) == 10 * p;
    }
  }

  lemma {:induction false} ValueAppend(s: string, c: char)
    requires AllDigits(s) && IsDigit(c)
    ensures AllDigits(s + [c])
    ensures Value(s + [c]) == 10 * Value(s) + DigitValue(c)
  {
    var t := s + [c];
    assert AllDigits(t);
    if |s| > 0 {
      assert t[1..] == s[1..] + [c];
      ValueAppend(s[1..], c);
      var d, p := DigitValue(s[0]), Pow10(|s| - 1);
      assert t[0] == s[0] && |t| - 1 == |s|;
      assert Value(t) == d * Pow10(|s|) + Value(s[1..] + [c]);
      assert Pow10(|s|) == 10 * p;
      MulShift(d, p);
      assert Value(s) == d * p + Value(s[1..]);
    }
  }

  /** Leading zeros do not change a digit string's value. */
  lemma {:induction false} ValueLeadingZeros(z: nat, s: string)
    requires AllDigits(s)
    ensures AllDigits(Zeros(z) + s)
    ensures Value(Zeros(z) + s) == Value(s)
  {
    var t := Zeros(z) + s;
    assert AllDigits(t);
    if z > 0 {
      assert t[0] == '0' && DigitValue(t[0]) == 0;
      assert t[1..] == Zeros(z - 1) + s;
      ValueLeadingZeros(z - 1, s);
      assert Value(t) == 0 * Pow10(|t| - 1) + Value(t[1..]);
    } else {
      assert t == s;
    }
  }

  /** Reading back `str(n)` gives `n`. */
  lemma {:induction false} DecimalRoundTrip(n: nat)
    ensures Value(Decimal(n)) == n
  {
    if n >= 10 {
      DecimalRoundTrip(n / 10);
      ValueAppend(Decimal(n / 10), DigitChar(n % 10));
    } else {
      assert Decimal(n)[1..] == [];
    }
  }

  /** `str(n)` needs at most `w` characters when `n < 10^w` (and `w >= 1`). */
  lemma {:induction false} DecimalFits(n: nat, w: nat)
    requires 1 <= w && n < Pow10(w)
    ensures |Decimal(n)| <= w
  {
    if n >= 10 {
      assert Pow10(1) == 10;
      assert w >= 2;
      DecimalFits(n / 10, w - 1);
    }
  }

  /** Every padded index is a digit string whose value is the index. */
  lemma PaddedRoundTrip(i: nat, w: nat)
    ensures AllDigits(Padded(i, w))
    ensures Value(Padded(i, w)) == i
  {
    var s := Decimal(i);
    DecimalRoundTrip(i);
    if |s| < w {
      ValueLeadingZeros(w - |s|, s);
    }
  }

  /** Distinct indices never share a padded rendering. */
  lemma PaddedInjective(i: nat, j: nat, w: nat)
    requires Padded(i, w) == Padded(j, w)
    ensures i == j
  {
    PaddedRoundTrip(i, w);
    PaddedRoundTrip(j, w);
  }

  /** For `w >= 1`, an index below `10^w` pads to exactly `w` characters:
      no truncation and no overflow of the width. (At `w == 0` the index is
      left as `str(i)`, one character for `0`.) */
  lemma PaddedExactWidth(i: nat, w: nat)
    requires 1 <= w && i < Pow10(w)
    ensures |Padded(i, w)| == w
  {
    DecimalFits(i, w);
  }

  /** On digit strings of equal length, string order is numeric order. */
  lemma {:induction false} LexLessIsNumericOrder(a: string, b: string)
    requires |a| == |b| && AllDigits(a) && AllDigits(b)
    ensures LexLess(a, b) <==> Value(a) < Value(b)
  {
    if |a| > 0 {
      var p := Pow10(|a| - 1);
      var da, db := DigitValue(a[0]), DigitValue(b[0]);
      ValueBound(a[1..]);
      ValueBound(b[1..]);
      LexLessIsNumericOrder(a[1..], b[1..]);
      assert Value(a) == da * p + Value(a[1..]);
      assert Value(b) == db * p + Value(b[1..]);
      if da < db {
        LeadingDigitDecides(da, db, p, Value(a[1..]), Value(b[1..]));
      } else if db < da {
        LeadingDigitDecides(db, da, p, Value(b[1..]), Value(a[1..]));
      }
    }
  }

  lemma MulShift(d: nat, p: nat)
    ensures d * (10 * p) == 10 * (d * p)
  {
  }

  lemma MulMonotone(a: nat, b: nat, p: nat)
    requires a <= b
    ensures a * p <= b * p
  {
    assert b * p == a * p + (b - a) * p;
  }

  /** A smaller leading digit outweighs any lower-order remainder. */
  lemma LeadingDigitDecides(x: nat, y: nat, p: nat, rx: nat, ry: nat)
    requires x < y && rx < p
    ensures x * p + rx < y * p + ry
  {
    assert (x + 1) * p == x * p + p;
    assert (x + 1) * p <= y * p;
  }

  /** Padded indices below `10^w` (`w >= 1`) sort, as strings, in index
      order. */
  lemma PaddedOrder(i: nat, j: nat, w: nat)
    requires 1 <= w && i < Pow10(w) && j < Pow10(w)
    ensures LexLess(Padded(i, w), Padded(j, w)) <==> i < j
  {
    PaddedExactWidth(i, w);
    PaddedExactWidth(j, w);
    PaddedRoundTrip(i, w);
    PaddedRoundTrip(j, w);
    LexLessIsNumericOrder(Padded(i, w), Padded(j, w));
  }

  /** Order decided within equal-length prefixes survives any suffixes. */
  lemma {:induction false} LexLessExtend(a: string, b: string, x: string, y: string)
    requires |a| == |b| && LexLess(a, b)
    ensures LexLess(a + x, b + y)
  {
    assert |a| > 0;
    if a[0] == b[0] && !(a[0] < b[0]) {
      assert (a + x)[1..] == a[1..] + x;
      assert (b + y)[1..] == b[1..] + y;
      LexLessExtend(a[1..], b[1..], x, y);
    }
  }

  /** A common prefix does not change the order of two strings. */
  lemma {:induction false} LexLessCommonPrefix(p: string, x: string, y: string)
    requires LexLess(x, y)
    ensures LexLess(p + x, p + y)
  {
    if |p| == 0 {
      assert p + x == x && p + y == y;
    } else {
      assert (p + x)[1..] == p[1..] + x;
      assert (p + y)[1..] == p[1..] + y;
      LexLessCommonPrefix(p[1..], x, y);
    }
  }

  lemma {:induction false} Pow10Monotone(a: nat, b: nat)
    requires a <= b
    ensures Pow10(a) <= Pow10(b)
  {
    if a < b {
      Pow10Monotone(a, b - 1);
    }
  }
}

=== FILE: paths.dfy ===
/** POSIX path joining, as Python's `os.path.join(a, b)` does it for two
    components. */
module Paths {

  /** `os.path.join(a, b)`: an absolute `b` replaces `a`; otherwise `b` is
      appended to `a`, with a '/' in between unless `a` is empty or already
      ends with one. */
  function Join(a: string, b: string): (r: string)
    ensures |b| > 0 && b[0] == '/' ==> r == b
    ensures a == "" ==> r == b
    ensures !(|b| > 0 && b[0] == '/') ==> r == JoinPrefix(a) + b
  {
    if |b| > 0 && b[0] == '/' then b
    else JoinPrefix(a) + b
  }

  /** What `Join(a, b)` puts in front of a relative `b`. */
  function JoinPrefix(a: string): (p: string)
    ensures a == "" ==> p == ""
    ensures a != "" ==> (p == a || p == a + "/") && p[|p| - 1] == '/'
  {
    if a == "" || a[|a| - 1] == '/' then a else a + "/"
  }

  /** Joining under one folder never merges two distinct relative names. */
  lemma JoinInjective(a: string, b: string, c: string)
    requires |b| > 0 && b[0] != '/'
    requires |c| > 0 && c[0] != '/'
    requires Join(a, b) == Join(a, c)
    ensures b == c
  {
    var p := JoinPrefix(a);
    assert Join(a, b) == p + b && Join(a, c) == p + c;
    assert b == (p + b)[|p|..];
    assert c == (p + c)[|p|..];
  }
}

=== FILE: results.dfy ===
/** The two shapes the modelled Python code gives its outcomes: a possibly
    missing argument, and a computation that may raise. */
module Results {

  /** An argument the caller may leave out; `None` is Python's `None`. */
  datatype Option<T> = None | Some(value: T) {

    /** Python's `x if x else fallback` for an argument that is falsy only
        when missing. */
    function GetOr(fallback: T): (r: T)
      ensures Some? ==> r == value
      ensures None? ==> r == fallback
    {
      if Some? then value else fallback
    }
  }

  /** What a call produces: its value (`Ok`), or the exception the Python
      code raises instead (`Err`). */
  datatype Result<T, E> = Ok(value: T) | Err(error: E)
}

=== FILE: serialize.dfy ===
/** The registration-serialization pipeline of `pyflyte serialize`: identifier
    stamping of scanned objects, expansion of the entity registry into a
    batch, the zero-pad width of file indices, and the names of the record
    and identifier files written for each batch entry. Files are modelled by
    their names together with the entity whose serialized form (and whose
    identifier) they hold; the bytes themselves are not modelled. */
module Serialize {
  import opened Results
  import opened Digits
  import Paths

  /** Placeholders the registry substitutes at registration time. */
  const ProjectPlaceholder: string := "{{ registration.project }}"
  const DomainPlaceholder: string := "{{ registration.domain }}"
  const VersionPlaceholder: string := "{{ registration.version }}"

  datatype ResourceType = TaskResource | WorkflowResource | LaunchPlanResource

  datatype Identifier = Identifier(
    resourceType: ResourceType,
    project: string,
    domain: string,
    name: string,
    version: string)

  /** A registerable entity as the writer sees it: its resource type, its
      identifier, whether the platform client already registered it, and an
      opaque stand-in for the bytes `serialize()` would produce. */
  datatype Registerable = Registerable(
    resourceType: ResourceType,
    id: Identifier,
    hasRegistered: bool,
    payload: string)

  /** One `(module, binding name, object)` triple of the package scan. */
  datatype Discovered = Discovered(moduleName: string, key: string, obj: Registerable)

  /** An entry of the entity registry. The registerable forms the SDK would
      compute for it are carried as opaque values: a task has a default and
      a fast form; a workflow has its own form and the form of its default
      launch plan, and `createsLaunchPlan` says whether fetching that
      default launch plan constructs a new launch-plan object (which then
      joins the registry). Anything that is not a task, workflow or launch
      plan is `Other`. */
  datatype Entity =
    | Task(defaultForm: Registerable, fastForm: Registerable)
    | Workflow(form: Registerable, defaultLaunchPlan: Registerable, createsLaunchPlan: bool)
    | LaunchPlan(form: Registerable)
    | Other

  /** The serialization mode; `Unrecognized` stands for any other truthy
      value a caller could pass. */
  datatype Mode = Default | Fast | Unrecognized(token: int)

  datatype SerializeError = UnrecognizedMode(token: int)

  /** The two files written for one batch entry: the record file holding
      `entity`'s serialized form and the identifier file holding `entity.id`. */
  datatype Written = Written(recordPath: string, identifierPath: string, entity: Registerable)

  /** The fast-registration command's output: the record files and the path
      of the source archive. */
  datatype FastOutput = FastOutput(files: seq<Written>, archivePath: string)

  /** Identifiers produced by this pipeline carry the three placeholders. */
  predicate HasPlaceholders(id: Identifier) {
    id.project == ProjectPlaceholder && id.domain == DomainPlaceholder && id.version == VersionPlaceholder
  }

  // ---------------------------------------------------------------------------
  // Identifier stamping
  // ---------------------------------------------------------------------------

  /** Attaches the placeholder identifier to a scanned object; its name is
      `fqdn(module, key, resource type)`. Nothing but the identifier changes. */
  function Stamp(d: Discovered, fqdn: (string, string, ResourceType) -> string): (r: Registerable)
    ensures HasPlaceholders(r.id)
    ensures r.id.resourceType == d.obj.resourceType
    ensures r.id.name == fqdn(d.moduleName, d.key, d.obj.resourceType)
    ensures r.(id := d.obj.id) == d.obj
  {
    d.obj.(id := Identifier(
      d.obj.resourceType, ProjectPlaceholder, DomainPlaceholder,
      fqdn(d.moduleName, d.key, d.obj.resourceType), VersionPlaceholder))
  }

  /** The scan loop: every scanned object stamped, in scan order. */
  function AssignIdentifiers(scanned: seq<Discovered>, fqdn: (string, string, ResourceType) -> string): (r: seq<Registerable>)
    ensures |r| == |scanned|
    ensures forall i :: 0 <= i < |r| ==>
      HasPlaceholders(r[i].id) && r[i].id.name == fqdn(scanned[i].moduleName, scanned[i].key, scanned[i].obj.resourceType)
    ensures forall i :: 0 <= i < |r| ==> r[i] == Stamp(scanned[i], fqdn)
  {
    seq(|scanned|, i requires 0 <= i < |scanned| => Stamp(scanned[i], fqdn))
  }

  // ---------------------------------------------------------------------------
  // Expansion of the registry
  // ---------------------------------------------------------------------------

  /** A missing (falsy) mode means `Default`. */
  function EffectiveMode(mode: Option<Mode>): (m: Mode) {
    mode.GetOr(Default)
  }

  /** The registerable forms one registry entry contributes. */
  function ExpandEntity(e: Entity, mode: Mode): (r: Result<seq<Registerable>, SerializeError>)
    ensures r.Err? <==> e.Task? && mode.Unrecognized?
    ensures r.Err? ==> r.error == UnrecognizedMode(mode.token)
  {
    match e
    case Task(d, f) =>
      if mode.Default? then Ok([d])
      else if mode.Fast? then Ok([f])
      else Err(UnrecognizedMode(mode.token))
    case Workflow(w, lp, _) => Ok([w, lp])
    case LaunchPlan(l) => Ok([l])
    case Other => Ok([])
  }

  /** How many batch entries the registry entries contribute. */
  function ExpandedSize(s: seq<Entity>): (n: nat) {
    if |s| == 0 then 0
    else
      (match s[0]
       case Task(_, _) => 1
       case Workflow(_, _, _) => 2
       case LaunchPlan(_) => 1
       case Other => 0) + ExpandedSize(s[1..])
  }

  /** The expansion of a registry snapshot, entry by entry in order. It fails
      exactly when the mode is unrecognized and a task is reached. */
  function Expand(snapshot: seq<Entity>, mode: Mode): (r: Result<seq<Registerable>, SerializeError>)
    ensures r.Ok? <==> (mode.Unrecognized? ==> forall k :: 0 <= k < |snapshot| ==> !snapshot[k].Task?)
    ensures r.Err? ==> r.error == UnrecognizedMode(mode.token)
    ensures r.Ok? ==> |r.value| == ExpandedSize(snapshot)
  {
    if |snapshot| == 0 then Ok([])
    else
      match ExpandEntity(snapshot[0], mode)
      case Err(e) => Err(e)
      case Ok(head) =>
        match Expand(snapshot[1..], mode)
        case Err(e) => Err(e)
        case Ok(tail) => Ok(head + tail)
  }

  /** The launch-plan objects that fetching default launch plans constructs
      while `snapshot` is expanded, in construction order. */
  function CreatedLaunchPlans(snapshot: seq<Entity>): (r: seq<Entity>)
    ensures forall k :: 0 <= k < |r| ==> r[k].LaunchPlan?
    ensures |r| <= |snapshot|
  {
    if |snapshot| == 0 then []
    else
      (if snapshot[0].Workflow? && snapshot[0].createsLaunchPlan
       then [LaunchPlan(snapshot[0].defaultLaunchPlan)] else [])
      + CreatedLaunchPlans(snapshot[1..])
  }

  lemma {:induction false} CreatedLaunchPlansConcat(a: seq<Entity>, b: seq<Entity>)
    ensures CreatedLaunchPlans(a + b) == CreatedLaunchPlans(a) + CreatedLaunchPlans(b)
  {
    if |a| > 0 {
      assert (a + b)[1..] == a[1..] + b;
      CreatedLaunchPlansConcat(a[1..], b);
    } else {
      assert a + b == b;
    }
  }

  /** A one-entry snapshot expands to that entry's forms. */
  lemma ExpandSingle(e: Entity, mode: Mode)
    ensures Expand([e], mode) == ExpandEntity(e, mode)
  {
    assert [e][1..] == [];
    if ExpandEntity(e, mode).Ok? {
      assert ExpandEntity(e, mode).value + [] == ExpandEntity(e, mode).value;
    }
  }

  /** A concatenation expands successfully iff both parts do. */
  lemma ExpandConcatOk(a: seq<Entity>, b: seq<Entity>, mode: Mode)
    ensures Expand(a + b, mode).Ok? <==> Expand(a, mode).Ok? && Expand(b, mode).Ok?
  {
    var c := a + b;
    assert forall k :: 0 <= k < |a| ==> c[k] == a[k];
    assert forall k :: 0 <= k < |b| ==> c[|a| + k] == b[k];
  }

  /** Expanding a concatenation expands each part. */
  lemma {:induction false} ExpandConcat(a: seq<Entity>, b: seq<Entity>, mode: Mode)
    ensures Expand(a + b, mode).Ok? <==> Expand(a, mode).Ok? && Expand(b, mode).Ok?
    ensures Expand(a + b, mode).Ok? ==>
      Expand(a + b, mode).value == Expand(a, mode).value + Expand(b, mode).value
  {
    ExpandConcatOk(a, b, mode);
    if |a| == 0 {
      assert a + b == b;
    } else if Expand(a + b, mode).Ok? {
      var c := a + b;
      assert c[0] == a[0] && c[1..] == a[1..] + b;
      ExpandConcatOk(a[1..], b, mode);
      ExpandConcat(a[1..], b, mode);
      var h := ExpandEntity(a[0], mode).value;
      var ta, tb := Expand(a[1..], mode).value, Expand(b, mode).value;
      assert Expand(c, mode).value == h + (ta + tb);
      assert Expand(a, mode).value == h + ta;
      assert h + (ta + tb) == (h + ta) + tb;
    }
  }

  /** Appending one entry to an expanded prefix appends its forms, or
      fails with its error. */
  lemma ExpandAppend(s: seq<Entity>, e: Entity, mode: Mode)
    requires Expand(s, mode).Ok?
    ensures ExpandEntity(e, mode).Err? ==> Expand(s + [e], mode) == ExpandEntity(e, mode)
    ensures ExpandEntity(e, mode).Ok? ==>
      Expand(s + [e], mode) == Ok(Expand(s, mode).value + ExpandEntity(e, mode).value)
  {
    ExpandConcat(s, [e], mode);
    ExpandSingle(e, mode);
  }

  /** One iteration of the expansion loop: the entry's forms are appended
      to the batch, and fetching a workflow's default launch plan may append
      a new launch plan to the live registry. */
  method ExpandOne(e: Entity, mode: Mode, batch: seq<Registerable>, live: seq<Entity>)
    returns (ok: bool, batch': seq<Registerable>, live': seq<Entity>)
    ensures ok <==> ExpandEntity(e, mode).Ok?
    ensures ok ==> batch' == batch + ExpandEntity(e, mode).value
    ensures ok ==> live' == live + CreatedLaunchPlans([e])
  {
    ok, batch', live' := true, batch, live;
    assert [e][1..] == [];
    match e {
      case Task(d, f) =>
        if mode.Default? {
          batch' := batch' + [d];
        } else if mode.Fast? {
          batch' := batch' + [f];
        } else {
          ok := false;
        }
      case Workflow(w, lp, creates) =>
        batch' := batch' + [w];
        if creates {
          live' := live' + [LaunchPlan(lp)];
        }
        batch' := batch' + [lp];
        assert batch' == batch + [w, lp];
      case LaunchPlan(l) =>
        batch' := batch' + [l];
      case Other =>
        assert batch' == batch + [];
        assert live' == live + [];
    }
  }

  /** The expansion loop over `FlyteEntities.entities.copy()`: entries are
      read from the snapshot taken before the loop while default launch
      plans constructed on the way are appended to the live registry, so
      the batch is the expansion of the snapshot alone. */
  method ExpandRegistry(registry: seq<Entity>, mode: Mode)
    returns (r: Result<seq<Registerable>, SerializeError>, live: seq<Entity>)
    ensures r == Expand(registry, mode)
    ensures r.Ok? ==> live == registry + CreatedLaunchPlans(registry)
    ensures |live| >= |registry| && live[..|registry|] == registry
  {
    live := registry;
    var snapshot := registry;
    var batch: seq<Registerable> := [];
    var i := 0;
    while i < |snapshot|
      invariant 0 <= i <= |snapshot|
      invariant live == registry + CreatedLaunchPlans(snapshot[..i])
      invariant |live| >= |registry| && live[..|registry|] == registry
      invariant Expand(snapshot[..i], mode) == Ok(batch)
    {
      var e := snapshot[i];
      assert snapshot[..i + 1] == snapshot[..i] + [e];
      var ok, batch', live' := ExpandOne(e, mode, batch, live);
      if !ok {
        assert registry[i].Task? && mode.Unrecognized?;
        assert Expand(registry, mode).Err?;
        r := Err(UnrecognizedMode(mode.token));
        return;
      }
      ExpandAppend(snapshot[..i], e, mode);
      CreatedLaunchPlansConcat(snapshot[..i], [e]);
      batch, live := batch', live';
      assert live[..|registry|] == registry;
      i := i + 1;
    }
    assert snapshot[..i] == registry;
    r := Ok(batch);
  }

  // ---------------------------------------------------------------------------
  // Index width and file names
  // ---------------------------------------------------------------------------

  /** `_determine_text_chars`: 0 for an empty batch, otherwise the least `w`
      with `10^w >= n`. */
  function Width(n: nat): (w: nat)
    ensures n <= 1 ==> w == 0
    ensures n >= 1 ==> Pow10(w) >= n
    ensures w > 0 ==> Pow10(w - 1) < n
  {
    if n <= 1 then 0 else 1 + Width((n + 9) / 10)
  }

  /** `"{}_{}".format(str(i).zfill(w), name)`: the shared stem of both file
      names of batch entry `i`. */
  function FileStem(i: nat, w: nat, name: string): (stem: string)
    ensures |stem| > |name| + 1 && IsDigit(stem[0])
    ensures stem[|stem| - |name| - 1..] == "_" + name
  {
    var p := Padded(i, w);
    assert (p + "_" + name)[|p|..] == "_" + name;
    p + "_" + name
  }

  /** The digits in front of the `_` of a file stem read back as the batch
      index, so a file name tells which entry it belongs to. */
  lemma StemIndex(i: nat, w: nat, name: string)
    ensures var stem := FileStem(i, w, name);
      AllDigits(stem[..|stem| - |name| - 1]) && Value(stem[..|stem| - |name| - 1]) == i
  {
    var p := Padded(i, w);
    PaddedRoundTrip(i, w);
    assert FileStem(i, w, name)[..|p|] == p;
  }

  /** `if folder: fname = os.path.join(folder, fname)`; an absent folder is
      the empty string. */
  function OutputPath(folder: string, fname: string): (path: string)
    ensures folder == "" ==> path == fname
    ensures folder != "" && !(|fname| > 0 && fname[0] == '/') ==> path == Paths.JoinPrefix(folder) + fname
  {
    if folder != "" then Paths.Join(folder, fname) else fname
  }

  /** The files written for batch entry `i` when indices are `w` wide. */
  function PairAt(batch: seq<Registerable>, w: nat, folder: string, i: nat): (pair: Written)
    requires i < |batch|
    ensures pair.entity == batch[i]
    ensures pair.recordPath != pair.identifierPath
  {
    var stem := FileStem(i, w, batch[i].id.name);
    var record, identifier := stem + ".pb", stem + ".identifier.pb";
    assert record[0] == stem[0] && identifier[0] == stem[0];
    assert |OutputPath(folder, record)| < |OutputPath(folder, identifier)|;
    Written(OutputPath(folder, record), OutputPath(folder, identifier), batch[i])
  }

  /** Whether batch entry `i` gets files: when `skipRegistered` holds,
      entries the platform already registered are skipped. */
  predicate Emitted(batch: seq<Registerable>, skipRegistered: bool, i: nat)
    requires i < |batch|
  {
    !(skipRegistered && batch[i].hasRegistered)
  }

  /** Strictly increasing positions. */
  predicate Increasing(idx: seq<nat>) {
    forall a, b :: 0 <= a < b < |idx| ==> idx[a] < idx[b]
  }

  /** The batch positions the writing loop emits files for, from `i` on:
      exactly the positions that are not skipped, in increasing order. */
  function EmittedFrom(batch: seq<Registerable>, skipRegistered: bool, i: nat): (idx: seq<nat>)
    requires i <= |batch|
    decreases |batch| - i
    ensures forall k :: 0 <= k < |idx| ==> i <= idx[k] < |batch| && Emitted(batch, skipRegistered, idx[k])
    ensures Increasing(idx)
    ensures !skipRegistered ==> |idx| == |batch| - i && forall k :: 0 <= k < |idx| ==> idx[k] == i + k
  {
    if i == |batch| then []
    else
      var rest := EmittedFrom(batch, skipRegistered, i + 1);
      if Emitted(batch, skipRegistered, i) then
        assert forall k :: 0 <= k < |rest| ==> i < rest[k];
        [i] + rest
      else
        rest
  }

  /** The files written for a whole batch, in writing order. Every entry
      keeps its batch position as its index, and the width is taken from the
      whole batch, skipped entries included. */
  function WriteBatch(batch: seq<Registerable>, folder: string, skipRegistered: bool): (out: seq<Written>)
    ensures forall p :: p in out ==>
      exists j :: 0 <= j < |batch| && Emitted(batch, skipRegistered, j) && p == PairAt(batch, Width(|batch|), folder, j)
    ensures forall j :: 0 <= j < |batch| && Emitted(batch, skipRegistered, j) ==>
      PairAt(batch, Width(|batch|), folder, j) in out
    ensures var idx := EmittedFrom(batch, skipRegistered, 0);
      |out| == |idx| && forall k :: 0 <= k < |out| ==> out[k] == PairAt(batch, Width(|batch|), folder, idx[k])
  {
    var w := Width(|batch|);
    var idx := EmittedFrom(batch, skipRegistered, 0);
    var out := seq(|idx|, k requires 0 <= k < |idx| => PairAt(batch, w, folder, idx[k]));
    forall j | 0 <= j < |batch| && Emitted(batch, skipRegistered, j)
      ensures j in idx
    {
      EmittedFromComplete(batch, skipRegistered, 0, j);
    }
    PairsOfEmitted(batch, w, folder, skipRegistered, idx, out);
    out
  }

  /** Every position from `i` on that is not skipped is emitted. */
  lemma {:induction false} EmittedFromComplete(batch: seq<Registerable>, skipRegistered: bool, i: nat, j: nat)
    requires i <= j < |batch| && Emitted(batch, skipRegistered, j)
    ensures j in EmittedFrom(batch, skipRegistered, i)
    decreases |batch| - i
  {
    if i < j {
      EmittedFromComplete(batch, skipRegistered, i + 1, j);
    }
  }

  /** Without the registered check every entry is written, in batch
      order, under its own index. */
  lemma WriteBatchInOrder(batch: seq<Registerable>, folder: string)
    ensures var out := WriteBatch(batch, folder, false);
      |out| == |batch| && forall k :: 0 <= k < |out| ==> out[k] == PairAt(batch, Width(|batch|), folder, k)
  {
    var idx := EmittedFrom(batch, false, 0);
    assert |idx| == |batch| && forall k :: 0 <= k < |idx| ==> idx[k] == k;
  }

  /** The pairs of a sequence of emitted positions are exactly the pairs of
      the emitted entries. */
  lemma PairsOfEmitted(batch: seq<Registerable>, w: nat, folder: string, skipRegistered: bool,
                       idx: seq<nat>, out: seq<Written>)
    requires forall k :: 0 <= k < |idx| ==> idx[k] < |batch| && Emitted(batch, skipRegistered, idx[k])
    requires forall j :: 0 <= j < |batch| && Emitted(batch, skipRegistered, j) ==> j in idx
    requires |out| == |idx| && forall k :: 0 <= k < |out| ==> out[k] == PairAt(batch, w, folder, idx[k])
    ensures forall p :: p in out ==>
      exists j :: 0 <= j < |batch| && Emitted(batch, skipRegistered, j) && p == PairAt(batch, w, folder, j)
    ensures forall j :: 0 <= j < |batch| && Emitted(batch, skipRegistered, j) ==> PairAt(batch, w, folder, j) in out
  {
    forall p | p in out
      ensures exists j :: 0 <= j < |batch| && Emitted(batch, skipRegistered, j) && p == PairAt(batch, w, folder, j)
    {
      var k :| 0 <= k < |out| && out[k] == p;
      assert p == PairAt(batch, w, folder, idx[k]);
    }
    forall j | 0 <= j < |batch| && Emitted(batch, skipRegistered, j)
      ensures PairAt(batch, w, folder, j) in out
    {
      var k :| 0 <= k < |idx| && idx[k] == j;
      assert out[k] == PairAt(batch, w, folder, j);
    }
  }

  // ---------------------------------------------------------------------------
  // The entry points
  // ---------------------------------------------------------------------------

  /** `serialize_tasks_only`: the scanned tasks are stamped and every one of
      them is written, registered or not. */
  function SerializeTasksOnly(scanned: seq<Discovered>, folder: string, fqdn: (string, string, ResourceType) -> string): (out: seq<Written>)
    ensures |out| == |scanned|
    ensures forall k :: 0 <= k < |out| ==>
      out[k].entity == Stamp(scanned[k], fqdn)
      && out[k] == PairAt(AssignIdentifiers(scanned, fqdn), Width(|scanned|), folder, k)
  {
    var batch := AssignIdentifiers(scanned, fqdn);
    WriteBatchInOrder(batch, folder);
    WriteBatch(batch, folder, false)
  }

  /** `loaded_entities` of `serialize_all`: the stamped scanned objects
      followed by the expansion of the registry snapshot. */
  function LoadedEntities(scanned: seq<Discovered>, registry: seq<Entity>, mode: Option<Mode>,
                          fqdn: (string, string, ResourceType) -> string): (r: Result<seq<Registerable>, SerializeError>)
    ensures r.Ok? <==> Expand(registry, EffectiveMode(mode)).Ok?
    ensures r.Ok? ==> |r.value| == |scanned| + ExpandedSize(registry)
  {
    match Expand(registry, EffectiveMode(mode))
    case Err(e) => Err(e)
    case Ok(expanded) => Ok(AssignIdentifiers(scanned, fqdn) + expanded)
  }

  /** `serialize_all`: fails, before anything is written, exactly when the
      mode is unrecognized and the registry holds a task; otherwise writes
      the files of every batch entry not already registered. */
  function SerializeAll(scanned: seq<Discovered>, registry: seq<Entity>, folder: string, mode: Option<Mode>,
                        fqdn: (string, string, ResourceType) -> string): (r: Result<seq<Written>, SerializeError>)
    ensures r.Err? <==> EffectiveMode(mode).Unrecognized? && exists k :: 0 <= k < |registry| && registry[k].Task?
    ensures r.Ok? ==> forall p :: p in r.value ==> !p.entity.hasRegistered
    ensures r.Ok? ==> |r.value| <= |scanned| + ExpandedSize(registry)
    ensures r.Ok? ==>
      var batch := LoadedEntities(scanned, registry, mode, fqdn).value;
      forall j :: 0 <= j < |batch| && !batch[j].hasRegistered ==> PairAt(batch, Width(|batch|), folder, j) in r.value
    ensures r.Ok? ==>
      var batch := LoadedEntities(scanned, registry, mode, fqdn).value;
      forall p :: p in r.value ==>
        exists j :: 0 <= j < |batch| && !batch[j].hasRegistered && p == PairAt(batch, Width(|batch|), folder, j)
  {
    match LoadedEntities(scanned, registry, mode, fqdn)
    case Err(e) => Err(e)
    case Ok(batch) =>
      var out := WriteBatch(batch, folder, true);
      assert |out| <= |batch| by {
        WriteBatchSize(batch, folder);
      }
      Ok(out)
  }

  /** The fast-registration archive name: `<digest>.tar.gz`, under the
      folder when one is given. */
  function ArchiveName(folder: string, digest: string): (r: string)
    ensures folder == "" ==> r == digest + ".tar.gz"
    ensures folder != "" && !(|digest| > 0 && digest[0] == '/') ==>
      r == Paths.JoinPrefix(folder) + digest + ".tar.gz"
  {
    Paths.Join(folder, digest + ".tar.gz")
  }

  /** `pyflyte serialize fast workflows`: `serialize_all` in fast mode,
      then the archive named after the digest of the source directory. */
  function FastWorkflows(scanned: seq<Discovered>, registry: seq<Entity>, folder: string, digest: string,
                         fqdn: (string, string, ResourceType) -> string): (r: Result<FastOutput, SerializeError>)
    ensures r.Ok?
    ensures r.value.files == SerializeAll(scanned, registry, folder, Some(Fast), fqdn).value
    ensures r.value.archivePath == ArchiveName(folder, digest)
  {
    match SerializeAll(scanned, registry, folder, Some(Fast), fqdn)
    case Err(e) => Err(e)
    case Ok(files) => Ok(FastOutput(files, ArchiveName(folder, digest)))
  }

  /** The writer emits at most one file pair per batch entry. */
  lemma WriteBatchSize(batch: seq<Registerable>, folder: string)
    ensures |WriteBatch(batch, folder, true)| <= |batch|
  {
    EmittedFromSize(batch, 0);
  }

  lemma {:induction false} EmittedFromSize(batch: seq<Registerable>, i: nat)
    requires i <= |batch|
    ensures |EmittedFrom(batch, true, i)| <= |batch| - i
    decreases |batch| - i
  {
    if i < |batch| {
      EmittedFromSize(batch, i + 1);
    }
  }
}

=== FILE: serialize_proofs.dfy ===
/** Properties of the serialization pipeline: the index width, the shape of
    the expanded batch, and the file names written for it. */
module SerializeProofs {
  import opened Results
  import opened Digits
  import opened Serialize
  import Paths

  // ---------------------------------------------------------------------------
  // Index width
  // ---------------------------------------------------------------------------

  /** `Width(n)` is the least `w` with `10^w >= n`. */
  lemma WidthIsLeast(n: nat, v: nat)
    requires n >= 1 && Pow10(v) >= n
    ensures Width(n) <= v
  {
    var w := Width(n);
    if v < w {
      Pow10Monotone(v, w - 1);
    }
  }

  /** The widths the docstring of `_determine_text_chars` gives, and those at
      100 and 101. */
  lemma WidthExamples()
    ensures Width(0) == 0 && Width(1) == 0
    ensures Width(10) == 1 && Width(11) == 2
    ensures Width(100) == 2 && Width(101) == 3
  {
  }

  /** In a batch of two or more entries every index pads to exactly the
      width, distinct indices get distinct prefixes, and prefixes sort as
      strings in index order. */
  lemma IndexPrefixes(n: nat, i: nat, j: nat)
    requires n >= 2 && i < n && j < n
    ensures |Padded(i, Width(n))| == Width(n)
    ensures Padded(i, Width(n)) == Padded(j, Width(n)) <==> i == j
    ensures LexLess(Padded(i, Width(n)), Padded(j, Width(n))) <==> i < j
  {
    var w := Width(n);
    PaddedExactWidth(i, w);
    PaddedOrder(i, j, w);
    if Padded(i, w) == Padded(j, w) {
      PaddedInjective(i, j, w);
    }
  }

  /** A single-entry batch has width 0, and `zfill(0)` leaves its index "0"
      one character long rather than truncating it. */
  lemma SingleEntryIndex()
    ensures Width(1) == 0 && Padded(0, Width(1)) == "0"
  {
  }

  // ---------------------------------------------------------------------------
  // Expansion
  // ---------------------------------------------------------------------------

  /** Splitting the snapshot at one entry splits the batch the same way. */
  lemma ExpandAround(before: seq<Entity>, e: Entity, after: seq<Entity>, mode: Mode)
    ensures Expand(before + [e] + after, mode).Ok? <==>
      Expand(before, mode).Ok? && ExpandEntity(e, mode).Ok? && Expand(after, mode).Ok?
    ensures Expand(before + [e] + after, mode).Ok? ==>
      Expand(before + [e] + after, mode).value
        == Expand(before, mode).value + ExpandEntity(e, mode).value + Expand(after, mode).value
  {
    ExpandConcat(before + [e], after, mode);
    ExpandConcat(before, [e], mode);
    ExpandSingle(e, mode);
  }

  /** A workflow contributes its own registerable form, immediately followed
      by that of its default launch plan. */
  lemma WorkflowFollowedByDefaultLaunchPlan(before: seq<Entity>, w: Entity, after: seq<Entity>, mode: Mode)
    requires w.Workflow?
    requires Expand(before + [w] + after, mode).Ok?
    ensures Expand(before, mode).Ok?
    ensures var batch := Expand(before + [w] + after, mode).value;
            var k := |Expand(before, mode).value|;
            k + 1 < |batch| && batch[k] == w.form && batch[k + 1] == w.defaultLaunchPlan
  {
    ExpandAround(before, w, after, mode);
  }

  /** A task contributes exactly one entry: its default form in default
      mode, its fast form in fast mode; any other mode fails the expansion. */
  lemma TaskFormFollowsMode(before: seq<Entity>, t: Entity, after: seq<Entity>, mode: Mode)
    requires t.Task?
    ensures mode.Unrecognized? ==> Expand(before + [t] + after, mode) == Err(UnrecognizedMode(mode.token))
    ensures Expand(before + [t] + after, mode).Ok? ==>
      Expand(before, mode).Ok? && Expand(after, mode).Ok? &&
      Expand(before + [t] + after, mode).value
        == Expand(before, mode).value + [if mode.Default? then t.defaultForm else t.fastForm] + Expand(after, mode).value
  {
    ExpandAround(before, t, after, mode);
  }

  /** A launch plan contributes its registerable form unchanged. */
  lemma LaunchPlanPassesThrough(before: seq<Entity>, l: Entity, after: seq<Entity>, mode: Mode)
    requires l.LaunchPlan?
    ensures Expand(before + [l] + after, mode).Ok? ==>
      Expand(before, mode).Ok? && Expand(after, mode).Ok? &&
      Expand(before + [l] + after, mode).value == Expand(before, mode).value + [l.form] + Expand(after, mode).value
  {
    ExpandAround(before, l, after, mode);
  }

  /** Entries that are not tasks, workflows or launch plans are dropped. */
  lemma OtherEntitiesDropped(before: seq<Entity>, after: seq<Entity>, mode: Mode)
    ensures Expand(before + [Other] + after, mode) == Expand(before + after, mode)
  {
    ExpandAround(before, Other, after, mode);
    ExpandConcat(before, after, mode);
    if Expand(before + after, mode).Ok? {
      assert Expand(before, mode).value + [] + Expand(after, mode).value
          == Expand(before, mode).value + Expand(after, mode).value;
    }
  }

  /** A registry without tasks expands the same way in every mode. */
  lemma ModeOnlyAffectsTasks(snapshot: seq<Entity>, m1: Mode, m2: Mode)
    requires forall k :: 0 <= k < |snapshot| ==> !snapshot[k].Task?
    ensures Expand(snapshot, m1) == Expand(snapshot, m2)
  {
    if |snapshot| > 0 {
      assert snapshot == [] + [snapshot[0]] + snapshot[1..];
      ExpandAround([], snapshot[0], snapshot[1..], m1);
      ExpandAround([], snapshot[0], snapshot[1..], m2);
      ModeOnlyAffectsTasks(snapshot[1..], m1, m2);
    }
  }

  /** The registry as fast mode sees it: each task offers its fast form
      where the default mode would take the default form. */
  function WithFastForms(s: seq<Entity>): (t: seq<Entity>)
    ensures |t| == |s|
  {
    if |s| == 0 then []
    else [if s[0].Task? then Task(s[0].fastForm, s[0].fastForm) else s[0]] + WithFastForms(s[1..])
  }

  /** Fast mode expands a registry exactly as the default mode expands it
      once every task's default form is replaced by its fast form: the mode
      only chooses which form of a task is taken, and fast mode never fails. */
  lemma {:induction false} FastModeTakesFastForms(s: seq<Entity>)
    ensures Expand(s, Fast) == Expand(WithFastForms(s), Default)
    ensures Expand(s, Fast).Ok?
  {
    if |s| > 0 {
      var t := WithFastForms(s);
      assert t[1..] == WithFastForms(s[1..]);
      FastModeTakesFastForms(s[1..]);
      assert ExpandEntity(s[0], Fast) == ExpandEntity(t[0], Default);
    }
  }

  /** Fast registration writes the files the default mode would write for
      the registry with every task's fast form in place of its default form. */
  lemma FastWorkflowsWriteFastForms(scanned: seq<Discovered>, registry: seq<Entity>, folder: string, digest: string,
                                    fqdn: (string, string, ResourceType) -> string)
    ensures FastWorkflows(scanned, registry, folder, digest, fqdn).value.files
      == SerializeAll(scanned, WithFastForms(registry), folder, Some(Default), fqdn).value
  {
    FastModeTakesFastForms(registry);
  }

  /** A missing mode behaves as the default mode. */
  lemma MissingModeIsDefault(scanned: seq<Discovered>, registry: seq<Entity>, folder: string,
                             fqdn: (string, string, ResourceType) -> string)
    ensures SerializeAll(scanned, registry, folder, None, fqdn) == SerializeAll(scanned, registry, folder, Some(Default), fqdn)
    ensures SerializeAll(scanned, registry, folder, None, fqdn).Ok?
  {
  }

  /** The batch of `serialize_all` starts with the stamped scanned objects,
      in scan order, and continues with the expansion of the registry. */
  lemma ScannedObjectsComeFirst(scanned: seq<Discovered>, registry: seq<Entity>, mode: Option<Mode>,
                                fqdn: (string, string, ResourceType) -> string)
    requires LoadedEntities(scanned, registry, mode, fqdn).Ok?
    ensures var batch := LoadedEntities(scanned, registry, mode, fqdn).value;
      && (forall k :: 0 <= k < |scanned| ==> batch[k] == Stamp(scanned[k], fqdn))
      && batch[|scanned|..] == Expand(registry, EffectiveMode(mode)).value
  {
  }

  // ---------------------------------------------------------------------------
  // File names
  // ---------------------------------------------------------------------------

  /** A path written for batch entry `i`: the stem plus a suffix, under the
      folder. */
  lemma OutputPathShape(folder: string, i: nat, w: nat, name: string, suffix: string)
    ensures var x := FileStem(i, w, name) + suffix;
      OutputPath(folder, x) == (if folder == "" then "" else Paths.JoinPrefix(folder)) + x
  {
    var x := FileStem(i, w, name) + suffix;
    PaddedRoundTrip(i, w);
    assert x[0] == Padded(i, w)[0];
    assert IsDigit(x[0]);
  }

  /** Two file names of entries of one batch that agree must come from the
      same index. */
  lemma SameFileSameIndex(n: nat, i: nat, j: nat, ni: string, nj: string, si: string, sj: string)
    requires i < n && j < n
    ensures FileStem(i, Width(n), ni) + si == FileStem(j, Width(n), nj) + sj ==> i == j
  {
    var w := Width(n);
    if n >= 2 && FileStem(i, w, ni) + si == FileStem(j, w, nj) + sj {
      assert w >= 1 && Pow10(w) >= n;
      PaddedExactWidth(i, w);
      PaddedExactWidth(j, w);
      StemHead(i, w, ni, si);
      StemHead(j, w, nj, sj);
      PaddedInjective(i, j, w);
    }
  }

  /** A file name starts with its padded index. */
  lemma StemHead(i: nat, w: nat, name: string, suffix: string)
    ensures var p := Padded(i, w);
      |p| <= |FileStem(i, w, name) + suffix| && (FileStem(i, w, name) + suffix)[..|p|] == p
  {
    var p := Padded(i, w);
    var x := FileStem(i, w, name) + suffix;
    assert forall k :: 0 <= k < |p| ==> x[k] == p[k];
  }

  lemma DropCommonPrefix(p: string, x: string, y: string)
    ensures p + x == p + y ==> x == y
  {
    if p + x == p + y {
      assert x == (p + x)[|p|..];
      assert y == (p + y)[|p|..];
    }
  }

  /** No two files written for a batch share a path: record paths and
      identifier paths of distinct entries differ, and no record path is an
      identifier path. */
  lemma WrittenPathsDistinct(batch: seq<Registerable>, folder: string, i: nat, j: nat)
    requires i < |batch| && j < |batch|
    ensures var w := Width(|batch|);
      var a := PairAt(batch, w, folder, i);
      var b := PairAt(batch, w, folder, j);
      && a.recordPath != b.identifierPath
      && (i != j ==> a.recordPath != b.recordPath && a.identifierPath != b.identifierPath)
  {
    var n, w := |batch|, Width(|batch|);
    var ni, nj := batch[i].id.name, batch[j].id.name;
    var pre := if folder == "" then "" else Paths.JoinPrefix(folder);
    OutputPathShape(folder, i, w, ni, ".pb");
    OutputPathShape(folder, i, w, ni, ".identifier.pb");
    OutputPathShape(folder, j, w, nj, ".pb");
    OutputPathShape(folder, j, w, nj, ".identifier.pb");
    var ri := FileStem(i, w, ni) + ".pb";
    var rj := FileStem(j, w, nj) + ".pb";
    var ii := FileStem(i, w, ni) + ".identifier.pb";
    var ij := FileStem(j, w, nj) + ".identifier.pb";
    DropCommonPrefix(pre, ri, ij);
    DropCommonPrefix(pre, ri, rj);
    DropCommonPrefix(pre, ii, ij);
    SameFileSameIndex(n, i, j, ni, nj, ".pb", ".identifier.pb");
    SameFileSameIndex(n, i, j, ni, nj, ".pb", ".pb");
    SameFileSameIndex(n, i, j, ni, nj, ".identifier.pb", ".identifier.pb");
  }

  /** The record path of entry `i`, cut into folder prefix, index and the
      rest. */
  lemma RecordPathShape(folder: string, i: nat, w: nat, name: string)
    ensures OutputPath(folder, FileStem(i, w, name) + ".pb")
      == (if folder == "" then "" else Paths.JoinPrefix(folder)) + (Padded(i, w) + ("_" + name + ".pb"))
  {
    OutputPathShape(folder, i, w, name, ".pb");
    Regroup(Padded(i, w), "_", name, ".pb");
  }

  lemma Regroup(a: string, b: string, c: string, d: string)
    ensures a + b + c + d == a + (b + c + d)
  {
  }

  /** Record files of a batch of two or more entries sort, as strings, in
      batch order. */
  lemma RecordPathsSortByIndex(batch: seq<Registerable>, folder: string, i: nat, j: nat)
    requires |batch| >= 2 && i < j < |batch|
    ensures var w := Width(|batch|);
      LexLess(PairAt(batch, w, folder, i).recordPath, PairAt(batch, w, folder, j).recordPath)
  {
    var w := Width(|batch|);
    var ni, nj := batch[i].id.name, batch[j].id.name;
    var pre := if folder == "" then "" else Paths.JoinPrefix(folder);
    IndexPrefixes(|batch|, i, j);
    IndexPrefixes(|batch|, j, i);
    RecordPathShape(folder, i, w, ni);
    RecordPathShape(folder, j, w, nj);
    LexLessExtend(Padded(i, w), Padded(j, w), "_" + ni + ".pb", "_" + nj + ".pb");
    LexLessCommonPrefix(pre, Padded(i, w) + ("_" + ni + ".pb"), Padded(j, w) + ("_" + nj + ".pb"));
  }

  /** Marking one entry as already registered removes exactly its own files:
      every other entry keeps its index, width and paths. */
  lemma SkipRemovesOnlyItsOwnFiles(batch: seq<Registerable>, folder: string, j: nat)
    requires j < |batch|
    ensures var marked := batch[j := batch[j].(hasRegistered := true)];
      var w := Width(|batch|);
      forall p :: p in WriteBatch(marked, folder, true) <==>
        p in WriteBatch(batch, folder, true) && p.recordPath != PairAt(batch, w, folder, j).recordPath
  {
    var marked := batch[j := batch[j].(hasRegistered := true)];
    var w := Width(|batch|);
    var out, out' := WriteBatch(batch, folder, true), WriteBatch(marked, folder, true);
    var skipped := PairAt(batch, w, folder, j).recordPath;
    forall p | p in out'
      ensures p in out && p.recordPath != skipped
    {
      var i :| 0 <= i < |marked| && Emitted(marked, true, i) && p == PairAt(marked, w, folder, i);
      MarkedAgrees(batch, folder, j, i);
      WrittenPathsDistinct(batch, folder, i, j);
    }
    forall p | p in out && p.recordPath != skipped
      ensures p in out'
    {
      var i :| 0 <= i < |batch| && Emitted(batch, true, i) && p == PairAt(batch, w, folder, i);
      MarkedAgrees(batch, folder, j, i);
    }
  }

  /** Marking entry `j` registered changes nothing about any other entry's
      files, and stops entry `j` from being emitted. */
  lemma MarkedAgrees(batch: seq<Registerable>, folder: string, j: nat, i: nat)
    requires j < |batch| && i < |batch|
    ensures var marked := batch[j := batch[j].(hasRegistered := true)];
      var w := Width(|batch|);
      && |marked| == |batch|
      && !Emitted(marked, true, j)
      && (i != j ==> PairAt(marked, w, folder, i) == PairAt(batch, w, folder, i)
                     && (Emitted(marked, true, i) <==> Emitted(batch, true, i)))
  {
  }

  /** A record name under a folder. */
  lemma RecordNameExample()
    ensures OutputPath("out", FileStem(2, 1, "pkg.w") + ".pb") == "out/2_pkg.w.pb"
  {
    assert Decimal(2) == "2";
    assert Padded(2, 1) == "2";
    var x := FileStem(2, 1, "pkg.w") + ".pb";
    assert x == "2_pkg.w.pb";
    assert Paths.JoinPrefix("out") == "out/";
    assert Paths.Join("out", x) == "out/" + x;
  }

  /** A bare identifier name, its index padded with zeros. */
  lemma IdentifierNameExample()
    ensures OutputPath("", FileStem(7, 3, "pkg.t") + ".identifier.pb") == "007_pkg.t.identifier.pb"
  {
    assert Decimal(7) == "7";
    assert Zeros(2) == "00";
    assert Padded(7, 3) == "007";
    assert FileStem(7, 3, "pkg.t") == "007" + "_" + "pkg.t";
    var fname := "007_pkg.t" + ".identifier.pb";
    assert OutputPath("", fname) == fname;
    assert fname == "007_pkg.t.identifier.pb";
  }

  /** Archive names with and without a folder. */
  lemma ArchiveNameExamples()
    ensures ArchiveName("", "abc") == "abc.tar.gz"
    ensures ArchiveName("out/", "abc") == "out/abc.tar.gz"
  {
    assert "abc" + ".tar.gz" == "abc.tar.gz";
    var folder, digest := "out/", "abc";
    assert folder[|folder| - 1] == '/';
    assert Paths.JoinPrefix(folder) == folder;
    assert digest[0] == 'a';
    assert ArchiveName(folder, digest) == folder + digest + ".tar.gz";
    assert folder + digest + ".tar.gz" == "out/abc.tar.gz";
  }

  // ---------------------------------------------------------------------------
  // Scenarios
  // ---------------------------------------------------------------------------

  function ScenarioId(t: ResourceType, name: string): (id: Identifier) {
    Identifier(t, ProjectPlaceholder, DomainPlaceholder, name, VersionPlaceholder)
  }

  /** A workflow with one task and a new default launch plan: the batch is
      the task, the workflow and the launch plan, in that order. */
  lemma ScenarioWorkflowWithTask(fqdn: (string, string, ResourceType) -> string)
    ensures var t := Registerable(TaskResource, ScenarioId(TaskResource, "pkg.t"), false, "t");
      var tf := Registerable(TaskResource, ScenarioId(TaskResource, "pkg.t"), false, "t-fast");
      var wf := Registerable(WorkflowResource, ScenarioId(WorkflowResource, "pkg.w"), false, "w");
      var lp := Registerable(LaunchPlanResource, ScenarioId(LaunchPlanResource, "pkg.w"), false, "lp");
      LoadedEntities([], [Task(t, tf), Workflow(wf, lp, true)], Some(Default), fqdn) == Ok([t, wf, lp])
  {
    var t := Registerable(TaskResource, ScenarioId(TaskResource, "pkg.t"), false, "t");
    var tf := Registerable(TaskResource, ScenarioId(TaskResource, "pkg.t"), false, "t-fast");
    var wf := Registerable(WorkflowResource, ScenarioId(WorkflowResource, "pkg.w"), false, "w");
    var lp := Registerable(LaunchPlanResource, ScenarioId(LaunchPlanResource, "pkg.w"), false, "lp");
    var registry := [Task(t, tf), Workflow(wf, lp, true)];
    assert registry == [registry[0]] + [registry[1]];
    ExpandConcat([registry[0]], [registry[1]], Default);
    ExpandSingle(registry[0], Default);
    ExpandSingle(registry[1], Default);
    assert AssignIdentifiers([], fqdn) + [t, wf, lp] == [t, wf, lp];
    assert EffectiveMode(Some(Default)) == Default;
    assert Expand([registry[0]], Default) == Ok([t]);
    assert Expand([registry[1]], Default) == Ok([wf, lp]);
    assert [t] + [wf, lp] == [t, wf, lp];
    assert Expand(registry, Default) == Ok([t, wf, lp]);
    assert LoadedEntities([], registry, Some(Default), fqdn) == Ok([t, wf, lp]);
  }
}

=== FILE: sidecar.dfy ===
/** The sidecar task plugin: validation of a `Sidecar` task configuration
    and the rewriting of the pod spec's primary container that `get_custom`
    performs before the pod spec is embedded in a `SidecarJob`. Protobuf
    messages are records; message fields this code never touches are kept
    as an opaque `otherFields` map. */
module SidecarTask {
  import opened Results

  /** A Kubernetes `EnvVar`. */
  datatype EnvVar = EnvVar(name: string, value: string)

  /** A Kubernetes `ResourceRequirements`: resource key to quantity string. */
  datatype ResourceRequirements = ResourceRequirements(limits: map<string, string>, requests: map<string, string>)

  /** A Kubernetes `Container`. */
  datatype Container = Container(
    name: string,
    image: string,
    command: seq<string>,
    args: seq<string>,
    env: seq<EnvVar>,
    resources: ResourceRequirements,
    otherFields: map<string, string>)

  /** A Kubernetes `PodSpec`. */
  datatype PodSpec = PodSpec(containers: seq<Container>, otherFields: map<string, string>)

  /** The resource names of a flytekit task's resource entries
      (`Resources.ResourceName`); its members are taken to be UNKNOWN, CPU,
      GPU, MEMORY and STORAGE, as the enum itself is not part of this model. */
  datatype ResourceName = Unknown | Cpu | Gpu | Memory | Storage

  datatype ResourceEntry = ResourceEntry(name: ResourceName, value: string)

  predicate DistinctKeys(items: seq<(string, string)>) {
    forall i, j :: 0 <= i < j < |items| ==> items[i].0 != items[j].0
  }

  /** The items of a Python dict, in insertion order: keys never repeat. */
  type Dict = items: seq<(string, string)> | DistinctKeys(items)

  /** The container an SDK runnable task would run in (`get_container`),
      an input of this model. */
  datatype SdkContainer = SdkContainer(
    image: string,
    command: seq<string>,
    args: seq<string>,
    env: Dict,
    limits: seq<ResourceEntry>,
    requests: seq<ResourceEntry>)

  /** The task configuration: a pod spec and the name of its primary
      container. */
  datatype Sidecar = Sidecar(podSpec: PodSpec, primaryContainerName: string)

  /** The custom payload `get_custom` serializes. */
  datatype SidecarJob = SidecarJob(podSpec: PodSpec, primaryContainerName: string)

  datatype ValidationError = PodSpecUndefined | PrimaryContainerNameUndefined

  // ---------------------------------------------------------------------------
  // Construction
  // ---------------------------------------------------------------------------

  /** `Sidecar.__init__`: a missing pod spec is rejected first, then an empty
      (or missing) primary container name. A pod spec message that is
      present is accepted even when it has no containers. */
  function NewSidecar(podSpec: Option<PodSpec>, primaryContainerName: string): (r: Result<Sidecar, ValidationError>)
    ensures r.Ok? <==> podSpec.Some? && primaryContainerName != ""
    ensures podSpec.None? ==> r == Err(PodSpecUndefined)
    ensures podSpec.Some? && primaryContainerName == "" ==> r == Err(PrimaryContainerNameUndefined)
    ensures r.Ok? ==> r.value.podSpec == podSpec.value && r.value.primaryContainerName == primaryContainerName
  {
    if podSpec.None? then Err(PodSpecUndefined)
    else if primaryContainerName == "" then Err(PrimaryContainerNameUndefined)
    else Ok(Sidecar(podSpec.value, primaryContainerName))
  }

  // ---------------------------------------------------------------------------
  // Resource keys and quantities
  // ---------------------------------------------------------------------------

  /** `Resources.ResourceName.Name(r)`: the protobuf enum value name. */
  function EnumName(r: ResourceName): (name: string) {
    match r
    case Unknown => "UNKNOWN"
    case Cpu => "CPU"
    case Gpu => "GPU"
    case Memory => "MEMORY"
    case Storage => "STORAGE"
  }

  function LowerChar(c: char): (l: char) {
    if 'A' <= c <= 'Z' then (c as int - 'A' as int + 'a' as int) as char else c
  }

  /** `str.lower()` on ASCII text. */
  function Lower(s: string): (r: string)
    ensures |r| == |s|
    ensures forall k :: 0 <= k < |s| ==> r[k] == LowerChar(s[k])
  {
    if |s| == 0 then [] else [LowerChar(s[0])] + Lower(s[1..])
  }

  /** The Kubernetes resource key of a resource name, written out; see
      `ResourceKeyIsLoweredName` for how the source derives it. */
  function ResourceKey(r: ResourceName): (key: string) {
    match r
    case Unknown => "unknown"
    case Cpu => "cpu"
    case Gpu => "gpu"
    case Memory => "memory"
    case Storage => "storage"
  }

  /** The key is `Name(resource.name).lower()`. */
  lemma ResourceKeyIsLoweredName(r: ResourceName)
    ensures ResourceKey(r) == Lower(EnumName(r))
  {
    var s, t := EnumName(r), ResourceKey(r);
    assert |s| == |t|;
    forall k | 0 <= k < |s|
      ensures LowerChar(s[k]) == t[k]
    {
    }
    LowerPointwise(s, t);
  }

  lemma LowerPointwise(s: string, t: string)
    requires |s| == |t|
    requires forall k :: 0 <= k < |s| ==> LowerChar(s[k]) == t[k]
    ensures Lower(s) == t
  {
    assert forall k :: 0 <= k < |s| ==> Lower(s)[k] == t[k];
  }

  /** Distinct resource names never share a key. */
  lemma ResourceKeyInjective(a: ResourceName, b: ResourceName)
    ensures ResourceKey(a) == ResourceKey(b) <==> a == b
  {
  }

  /** The quantity map built from resource entries in order: a later entry
      for the same resource overwrites an earlier one. */
  function Quantities(entries: seq<ResourceEntry>): (m: map<string, string>)
    ensures forall k :: k in m ==> exists e :: e in entries && ResourceKey(e.name) == k && m[k] == e.value
  {
    if |entries| == 0 then map[]
    else
      var init, last := entries[..|entries| - 1], entries[|entries| - 1];
      assert forall e :: e in init ==> e in entries;
      Quantities(init)[ResourceKey(last.name) := last.value]
  }

  /** The resource keys named by a list of entries. */
  function KeysOf(entries: seq<ResourceEntry>): (keys: set<string>) {
    set e | e in entries :: ResourceKey(e.name)
  }

  /** The quantity map has a key exactly for the resources that have an
      entry. */
  lemma {:induction false} QuantitiesKeys(entries: seq<ResourceEntry>)
    ensures Quantities(entries).Keys == KeysOf(entries)
  {
    if |entries| > 0 {
      var init := entries[..|entries| - 1];
      var last := entries[|entries| - 1];
      QuantitiesKeys(init);
      assert entries == init + [last];
      assert KeysOf(entries) == KeysOf(init) + {ResourceKey(last.name)};
    }
  }

  /** Each key holds the value of the last entry for that resource. */
  lemma {:induction false} QuantitiesLastWins(entries: seq<ResourceEntry>, i: nat)
    requires i < |entries| && LastFor(entries, i)
    ensures ResourceKey(entries[i].name) in Quantities(entries)
    ensures Quantities(entries)[ResourceKey(entries[i].name)] == entries[i].value
  {
    var init := entries[..|entries| - 1];
    var last := entries[|entries| - 1];
    var key := ResourceKey(entries[i].name);
    assert Quantities(entries) == Quantities(init)[ResourceKey(last.name) := last.value];
    if i < |init| {
      assert ResourceKey(last.name) != key;
      assert init[i] == entries[i];
      assert LastFor(init, i) by {
        forall j | i < j < |init|
          ensures ResourceKey(init[j].name) != ResourceKey(init[i].name)
        {
          assert init[j] == entries[j];
        }
      }
      QuantitiesLastWins(init, i);
    }
  }

  /** The SDK resources count as set exactly when the SDK container has at
      least one limit or request entry. */
  lemma DefaultResourcesSetIff(sdk: SdkContainer)
    ensures HasRequirements(DefaultResources(sdk)) <==> |sdk.limits| > 0 || |sdk.requests| > 0
  {
    if |sdk.limits| > 0 {
      assert ResourceKey(sdk.limits[0].name) in KeysOf(sdk.limits);
    }
    if |sdk.requests| > 0 {
      assert ResourceKey(sdk.requests[0].name) in KeysOf(sdk.requests);
    }
  }

  /** Entry `i` is the last entry for its resource (its key; keys and
      names correspond one to one by `ResourceKeyInjective`). */
  predicate LastFor(entries: seq<ResourceEntry>, i: nat)
    requires i < |entries|
  {
    forall j :: i < j < |entries| ==> ResourceKey(entries[j].name) != ResourceKey(entries[i].name)
  }

  /** The `ResourceRequirements` assembled from the SDK container. */
  function DefaultResources(sdk: SdkContainer): (rr: ResourceRequirements)
    ensures rr.limits.Keys == KeysOf(sdk.limits)
    ensures rr.requests.Keys == KeysOf(sdk.requests)
  {
    QuantitiesKeys(sdk.limits);
    QuantitiesKeys(sdk.requests);
    ResourceRequirements(Quantities(sdk.limits), Quantities(sdk.requests))
  }

  /** `resource_requirements.ByteSize() != 0`: the message is not the empty
      one, so some limit or request is set. */
  function HasRequirements(rr: ResourceRequirements): (nonEmpty: bool)
    ensures nonEmpty <==> rr != ResourceRequirements(map[], map[])
  {
    |rr.limits| > 0 || |rr.requests| > 0
  }

  // ---------------------------------------------------------------------------
  // The primary container
  // ---------------------------------------------------------------------------

  /** One `EnvVar` per item of the SDK container's env dict, in order. */
  function EnvFromDefault(items: Dict): (r: seq<EnvVar>)
    ensures |r| == |items| && forall i :: 0 <= i < |r| ==> r[i] == EnvVar(items[i].0, items[i].1)
    ensures forall i, j :: 0 <= i < j < |r| ==> r[i].name != r[j].name
    ensures forall kv :: kv in items <==> EnvVar(kv.0, kv.1) in r
  {
    var r := seq(|items|, i requires 0 <= i < |items| => EnvVar(items[i].0, items[i].1));
    assert forall kv :: kv in items ==> EnvVar(kv.0, kv.1) in r by {
      forall kv | kv in items
        ensures EnvVar(kv.0, kv.1) in r
      {
        var i :| 0 <= i < |items| && items[i] == kv;
        assert r[i] == EnvVar(kv.0, kv.1);
      }
    }
    r
  }

  /** The name-only container added when the pod spec has no primary. */
  function Placeholder(name: string): (c: Container)
    ensures c.name == name && c.image == "" && !HasRequirements(c.resources)
    ensures |c.command| == 0 && |c.args| == 0 && |c.env| == 0
  {
    Container(name, "", [], [], [], ResourceRequirements(map[], map[]), map[])
  }

  predicate HasPrimary(cs: seq<Container>, primary: string) {
    exists k :: 0 <= k < |cs| && cs[k].name == primary
  }

  /** How a primary container looks after `get_custom`: image, command and
      args replaced (not merged) by the SDK container's, env replaced by one
      entry per SDK env item, resources replaced only when the SDK container
      sets some, and everything else, name included, kept. */
  predicate RewrittenAsPrimary(before: Container, after: Container, sdk: SdkContainer) {
    && after.name == before.name
    && after.image == sdk.image
    && after.command == sdk.command
    && after.args == sdk.args
    && after.env == EnvFromDefault(sdk.env)
    && after.resources == (if HasRequirements(DefaultResources(sdk)) then DefaultResources(sdk) else before.resources)
    && after.otherFields == before.otherFields
  }

  /** The overwrite of one primary container. */
  function RewritePrimary(c: Container, sdk: SdkContainer): (r: Container)
    ensures RewrittenAsPrimary(c, r, sdk)
  {
    var rr := DefaultResources(sdk);
    c.(image := sdk.image,
       command := sdk.command,
       args := sdk.args,
       resources := if HasRequirements(rr) then rr else c.resources,
       env := EnvFromDefault(sdk.env))
  }

  /** The container list after `get_custom`: a placeholder primary is
      appended when none exists, every primary-named container is rewritten,
      and the others pass through unchanged and in order. */
  function RewriteContainers(cs: seq<Container>, primary: string, sdk: SdkContainer): (r: seq<Container>)
    ensures HasPrimary(r, primary)
    ensures |r| == if HasPrimary(cs, primary) then |cs| else |cs| + 1
    ensures forall i :: 0 <= i < |cs| && cs[i].name != primary ==> r[i] == cs[i]
    ensures forall i :: 0 <= i < |cs| && cs[i].name == primary ==> RewrittenAsPrimary(cs[i], r[i], sdk)
    ensures !HasPrimary(cs, primary) ==> RewrittenAsPrimary(Placeholder(primary), r[|cs|], sdk)
  {
    var ensured := if HasPrimary(cs, primary) then cs else cs + [Placeholder(primary)];
    var r := seq(|ensured|, i requires 0 <= i < |ensured| =>
      if ensured[i].name == primary then RewritePrimary(ensured[i], sdk) else ensured[i]);
    assert HasPrimary(r, primary) by {
      var k :| 0 <= k < |ensured| && ensured[k].name == primary;
      assert r[k].name == primary;
    }
    r
  }

  /** The task configuration after `get_custom` has rewritten its pod spec
      in place; the `SidecarJob` carries this pod spec and name. */
  function Customize(task: Sidecar, sdk: SdkContainer): (r: Sidecar)
    ensures r.primaryContainerName == task.primaryContainerName
    ensures r.podSpec.otherFields == task.podSpec.otherFields
    ensures HasPrimary(r.podSpec.containers, task.primaryContainerName)
    ensures r.podSpec.containers == RewriteContainers(task.podSpec.containers, task.primaryContainerName, sdk)
  {
    task.(podSpec := task.podSpec.(containers :=
      RewriteContainers(task.podSpec.containers, task.primaryContainerName, sdk)))
  }

  /** `SidecarFunctionTask.get_custom`, loop for loop: look for the primary
      container, append a placeholder if there is none, then rebuild the
      container list, rewriting every primary-named container. Returns the
      job and the task configuration as the in-place update leaves it. */
  method GetCustom(task: Sidecar, sdk: SdkContainer) returns (job: SidecarJob, updated: Sidecar)
    ensures updated == Customize(task, sdk)
    ensures job == SidecarJob(updated.podSpec, task.primaryContainerName)
  {
    var primary := task.primaryContainerName;
    var containers := task.podSpec.containers;
    var primaryExists := false;
    var i := 0;
    while i < |containers|
      invariant 0 <= i <= |containers|
      invariant !primaryExists
      invariant forall k :: 0 <= k < i ==> containers[k].name != primary
    {
      if containers[i].name == primary {
        primaryExists := true;
        break;
      }
      i := i + 1;
    }
    assert primaryExists <==> HasPrimary(task.podSpec.containers, primary);
    if !primaryExists {
      containers := containers + [Placeholder(primary)];
    }

    var finalContainers: seq<Container> := [];
    var j := 0;
    while j < |containers|
      invariant 0 <= j <= |containers|
      invariant |finalContainers| == j
      invariant forall k :: 0 <= k < j ==>
        finalContainers[k] == if containers[k].name == primary then RewritePrimary(containers[k], sdk) else containers[k]
    {
      var c := containers[j];
      if c.name == primary {
        c := RewritePrimary(c, sdk);
      }
      finalContainers := finalContainers + [c];
      j := j + 1;
    }
    var expected := RewriteContainers(task.podSpec.containers, primary, sdk);
    assert containers == if HasPrimary(task.podSpec.containers, primary) then task.podSpec.containers
                         else task.podSpec.containers + [Placeholder(primary)];
    assert |expected| == |finalContainers|;
    assert forall k :: 0 <= k < |finalContainers| ==> expected[k] == finalContainers[k];
    updated := task.(podSpec := task.podSpec.(containers := finalContainers));
    job := SidecarJob(updated.podSpec, primary);
  }

  // ---------------------------------------------------------------------------
  // Properties
  // ---------------------------------------------------------------------------

  /** A primary container's resources become the SDK's exactly when the SDK
      container has at least one limit or request; otherwise they are kept. */
  lemma PrimaryResources(c: Container, sdk: SdkContainer)
    ensures RewritePrimary(c, sdk).resources
      == if |sdk.limits| > 0 || |sdk.requests| > 0 then DefaultResources(sdk) else c.resources
  {
    DefaultResourcesSetIff(sdk);
  }

  /** The rewrite of a primary container is fully determined by the
      container and the SDK container. */
  lemma RewrittenDetermined(c: Container, a: Container, b: Container, sdk: SdkContainer)
    requires RewrittenAsPrimary(c, a, sdk) && RewrittenAsPrimary(c, b, sdk)
    ensures a == b
  {
  }

  /** Rewriting an already rewritten primary container changes nothing. */
  lemma RewrittenIsStable(c: Container, a: Container, b: Container, sdk: SdkContainer)
    requires RewrittenAsPrimary(c, a, sdk) && RewrittenAsPrimary(a, b, sdk)
    ensures b == a
  {
  }

  /** `get_custom` rewrites the task configuration in place; running it a
      second time leaves the pod spec as the first run left it. */
  lemma CustomizeIdempotent(task: Sidecar, sdk: SdkContainer)
    ensures Customize(Customize(task, sdk), sdk) == Customize(task, sdk)
  {
    var p := task.primaryContainerName;
    var cs := task.podSpec.containers;
    var r1 := RewriteContainers(cs, p, sdk);
    var r2 := RewriteContainers(r1, p, sdk);
    assert |r2| == |r1|;
    forall i | 0 <= i < |r1|
      ensures r2[i] == r1[i]
    {
      if r1[i].name == p {
        if i < |cs| {
          RewrittenIsStable(cs[i], r1[i], r2[i], sdk);
        } else {
          RewrittenIsStable(Placeholder(p), r1[i], r2[i], sdk);
        }
      }
    }
    assert r2 == r1;
  }

  /** A pod spec without the primary container gets exactly one, at the
      end, built from a name-only placeholder. */
  lemma MissingPrimaryAppended(cs: seq<Container>, primary: string, sdk: SdkContainer)
    requires !HasPrimary(cs, primary)
    ensures var r := RewriteContainers(cs, primary, sdk);
      && |r| == |cs| + 1
      && r[..|cs|] == cs
      && r[|cs|] == RewritePrimary(Placeholder(primary), sdk)
      && forall k :: 0 <= k < |r| && r[k].name == primary ==> k == |cs|
  {
    var r := RewriteContainers(cs, primary, sdk);
    assert forall k :: 0 <= k < |cs| ==> r[k] == cs[k];
    RewrittenDetermined(Placeholder(primary), r[|cs|], RewritePrimary(Placeholder(primary), sdk), sdk);
  }
}
